=== FILE: README.md ===
# WebRTC signalling relay and negotiation client, in Dafny

This project models the two small sequential components that set up a
two-party WebRTC call in the Next.js WebRTC template:

- the **signalling relay** (`signaling-server.js`), a socket.io server that
  keeps room membership and fans each message out to the other members of a
  room;
- the **negotiation client** (`src/pages/index.tsx`), the page that opens the
  camera, connects to the relay, runs the offer/answer/candidate exchange,
  relays chat, and tears everything down when a participant leaves.

Both are written as pure step functions over immutable state. Each step
returns what it emits.

- `SignalingRelay` (relay.dfy): the relay state is `map<RoomId, set<ConnId>>`.
  A handler returns the new state and a `multiset<Delivery>`. socket.io gives
  no order among the recipients of one broadcast. A member can receive the
  same event more than once, as when it shares two rooms with a connection
  that disconnects. `socket.to(r)` is modelled as "the members of `r` other
  than the sender".
- A connection's own-id room is an ordinary room named after the connection
  id (`Connect`). `disconnecting` skips it.
- socket.io removes a closing connection from all its rooms and deletes the
  rooms left empty. The `disconnecting` handler does not do this itself.
  `Leave` models that removal and `Disconnect` composes the two.
- `Negotiation` (agent.dfy): the page's `useState` values and its three refs
  (socket, peer connection, local stream) form one `Agent` record.
- The RTCPeerConnection becomes its local and remote descriptions plus the
  remote candidates it accepted.
- The relay socket remembers the room id and role that its handlers captured
  in `startMediaAndSocket`. `sendChatMessage` uses the page's current room id
  instead, as the code does.
- Every handler returns the new record and its effects: messages emitted,
  socket opened or closed, peer connection closed, tracks stopped.
- What the browser decides is passed in as a parameter:
  - the stream `getUserMedia` yields, or `None` when it rejects;
  - the connection id the relay assigns;
  - the SDP `createOffer`/`createAnswer` produce;
  - whether `addIceCandidate` succeeds.
- `AgentRuns` (agent_runs.dfy): the page's controls are actions. A run
  applies only the actions whose control is on screen. The invariants over
  whole runs are proved by induction.
- `JsText` (jstext.dfy): `String.prototype.trim` and the `!s.trim()` test.
- `TwoPartyCall` (call.dfy): two pages and the relay wired together. It
  covers call set-up (one `peer-joined`, then one offer, then one answer), a
  chat round trip, and hang-up.

Four behaviours of the code are worth stating outright:
- the relay has no capacity check and admits a third member
  (`ThirdJoinerAdmitted`);
- any participant answers any offer, whatever its role (`EveryOfferAnswered`);
- after a teardown the page is back to `Idle` and can start a new call, so
  there is no terminal "ended" phase (`LeaveEndsCall`);
- the `disconnecting` handler itself removes nobody. socket.io does that
  afterwards (`Leave`).

## Model

| member | source | states |
|---|---|---|
| SignalingRelay.Broadcast | signaling-server.js:19 | `socket.to(room).emit(ev)` hands exactly one copy of `ev` to each recipient and nothing to anyone else |
| SignalingRelay.Connect | signaling-server.js:12 | a new connection is put in the room named after its own id; no other room changes; rooms stay non-empty |
| SignalingRelay.HandleJoin | signaling-server.js:13-16 | after `join(c, r)`, `c` is a member of `r` and every other room is unchanged; each member of `r` other than `c` gets exactly one `peer-joined`, and `c` gets none; joining an empty room tells nobody; rooms stay non-empty |
| SignalingRelay.HandleSignal | signaling-server.js:18-20 | membership is unchanged and the sender need not be a member; `data` reaches each other member of `r` exactly once, unmodified; with no other member, nothing is delivered |
| SignalingRelay.HandleChat | signaling-server.js:22-24 | membership is unchanged; exactly one `{message, sender}`, with no room id, reaches each member of `r` other than the sender; with no other member, nothing is delivered |
| SignalingRelay.Dispatch | signaling-server.js:12-24 | only `join` changes membership, and no handler delivers back to the sending connection |
| SignalingRelay.HandleDisconnecting | signaling-server.js:26-32 | only `peer-left` is sent, and never to `c`; each other connection gets one `peer-left` per room it shares with `c`, the own-id room excluded; connections sharing no room with `c` get nothing |
| SignalingRelay.Leave | signaling-server.js:26 | after disconnecting, `c` is removed from every room, no other membership changes, and emptied rooms are discarded |
| SignalingRelay.Disconnect | signaling-server.js:26-32 | the handler followed by the removal: the counts of `HandleDisconnecting`, the membership of `Leave`, and no delivery at all when `c` is in no room but its own |
| SignalingRelay.ThirdJoinerAdmitted | signaling-server.js:13-16 | there is no capacity check: a third joiner is admitted (three members), and both earlier members get `peer-joined` |
| SignalingRelay.JoinReachesOther | signaling-server.js:13-16 | joining a room with exactly one other member tells exactly that member `peer-joined`, once |
| SignalingRelay.SignalReachesOther | signaling-server.js:18-20 | with exactly one other member in the room, a signal reaches exactly that member, once and unmodified |
| SignalingRelay.ChatReachesOther | signaling-server.js:22-24 | with exactly one other member in the room, a chat message reaches exactly that member, once |
| SignalingRelay.DisconnectFromOneRoom | signaling-server.js:26-31 | a connection in one room besides its own sends one `peer-left` to each other member of that room and none elsewhere |
| SignalingRelay.LeaveIdempotent | signaling-server.js:26-31 | removing a connection twice equals removing it once; after removal, a second disconnect has nobody to tell |
| SignalingRelay.DispatchKeepsValid | signaling-server.js:12-24 | no message handler leaves an empty room behind |
| JsText.TrimStart | src/pages/index.tsx:34 | the result is a suffix of the input, everything removed is white space, and the result does not start with white space |
| JsText.TrimEnd | src/pages/index.tsx:34 | the result is a prefix of the input, everything removed is white space, and the result does not end with white space |
| JsText.BlankIffTrimEmpty | src/pages/index.tsx:133 | a string made only of ECMAScript white space and line terminators, the empty string included, is exactly one whose `trim()` is the empty, falsy, string |
| Negotiation.StartMediaAndSocket | src/pages/index.tsx:60-129 | when `getUserMedia` rejects, nothing changes and nothing is sent; otherwise the stream, a socket capturing room and role, and a fresh peer connection are stored, `inCall` is set, exactly one `join` for that room is sent, and the only other effect is opening the socket |
| Negotiation.StartCall | src/pages/index.tsx:33-44 | a blank name sets the create-call error and emits nothing; otherwise the new room id and the caller role are taken; `join` goes out, and a socket opens, exactly when the camera was granted; nothing is closed; name, chat input and transcript are kept; a refused camera leaves socket, peer and stream as they were |
| Negotiation.JoinCall | src/pages/index.tsx:47-57 | a blank name sets the join-call error and emits nothing; an empty room id only clears the error; otherwise the callee role is taken; `join` of the typed room goes out, and a socket opens, exactly when the camera was granted; nothing is closed; room id, name, chat input and transcript are kept |
| Negotiation.OnIceCandidate | src/pages/index.tsx:81-85 | the state is untouched; a `candidate` signal to the captured room is emitted exactly when the event carries a candidate (not null) and a call is live; nothing else happens |
| Negotiation.OnPeerJoined | src/pages/index.tsx:93-100 | a caller records its offer as local description, keeps the remote description and the accepted candidates, changes nothing else, and emits exactly one `offer` and no other effect; a callee changes nothing and emits nothing |
| Negotiation.OnSignal | src/pages/index.tsx:101-118 | only the peer connection changes. An offer becomes the remote description, the created answer becomes the local one, and exactly one `answer` is emitted, in either role. An answer only sets the remote description. A candidate emits nothing and leaves both descriptions alone; it is recorded only when `addIceCandidate` succeeds. An unknown type changes nothing. Nothing is ever closed |
| Negotiation.OnChatMessage | src/pages/index.tsx:124-126 | an inbound chat message appends exactly one entry at the end of the transcript; nothing else changes and nothing is sent |
| Negotiation.Cleanup | src/pages/index.tsx:141-158 | peer, socket and stream end up empty and `inCall` false; room, role, name, input and transcript are kept; exactly the handles that were open are closed; no message is sent and no socket is opened |
| Negotiation.Receive | src/pages/index.tsx:93-126 | a page with no live call ignores every relay event; only `peer-left` has effects other than sending, and those only close or stop handles; on a live page `peer-left` releases all three handles |
| Negotiation.OnPeerLeft | src/pages/index.tsx:119-122 | `peer-left` during a call is exactly a cleanup |
| Negotiation.SenderName | src/pages/index.tsx:134 | the sender name is never empty: it is the typed name whenever one was typed, and "Anonymous" when none was |
| Negotiation.SendChatMessage | src/pages/index.tsx:132-139 | with non-blank input, an open socket and a room id, sends the untrimmed input with the typed name as sender (or "Anonymous" when none was typed) to the page's room, appends exactly that entry to the transcript and clears the input, with no effect but the message; otherwise nothing happens |
| Negotiation.StartedCallAwaitsPeer | src/pages/index.tsx:60-77 | a call that was started, in either role, waits for its peer with no description set |
| Negotiation.OnlyCallerOffers | src/pages/index.tsx:93-118 | the only inbound event that makes a page send an offer is `peer-joined`, on the page that created the call |
| Negotiation.EveryOfferAnswered | src/pages/index.tsx:101-107 | any live page that receives an offer sends exactly one answer, to the room its handlers captured, and is then in the answer-sent phase |
| Negotiation.ReceiveNeverJoins | src/pages/index.tsx:93-126 | no relay event makes a page send anything but a `signal` message; in particular it never sends `join` |
| Negotiation.CallerPhases | src/pages/index.tsx:93-110 | on `peer-joined` the caller goes from waiting to offer-sent and then, on the answer, to connected; a callee's `peer-joined` changes nothing |
| Negotiation.CandidateKeepsPhase | src/pages/index.tsx:111-117 | an inbound candidate, accepted or rejected, never changes the phase or the descriptions and never emits; a rejected one changes nothing at all |
| Negotiation.ChatKeepsPhase | src/pages/index.tsx:124-139 | sending or receiving a chat message never changes the negotiation phase |
| Negotiation.LeaveEndsCall | src/pages/index.tsx:119-122 | leaving, or `peer-left`, ends the call from every phase, and during a call closes both the socket and the peer connection |
| Negotiation.CleanupIdempotent | src/pages/index.tsx:141-158 | running cleanup twice equals running it once, and the second run closes nothing |
| AgentRuns.Enabled | src/pages/index.tsx:173-253 | the name box, the room box and both start buttons are usable exactly outside a call; the chat box, Send and "Leave Call" exactly during one; relay events and ICE callbacks at any time |
| AgentRuns.Apply | src/pages/index.tsx:173-248 | only typing in the name box changes the name, and it clears the name error; the room id changes only by typing it or by "Create Call"; typing into a box has no effects |
| AgentRuns.ApplyKeepsConsistent | src/pages/index.tsx:12-158 | every action the page offers keeps these in agreement: all three handles or none, `inCall` saying which, and the handlers' room and role matching the page |
| AgentRuns.ApplyExtendsChat | src/pages/index.tsx:124-139 | no action rewrites the transcript, and each adds at most one entry at its end |
| AgentRuns.RunKeepsConsistent | src/pages/index.tsx:173-212 | over any sequence of actions, with controls only usable while rendered, the handle/flag agreement is kept |
| AgentRuns.RunExtendsChat | src/pages/index.tsx:124-139 | over any sequence of actions, earlier transcript entries are preserved in order, one new entry at most per action |
| AgentRuns.JoinNeedsMedia | src/pages/index.tsx:33-70 | no action other than the two start buttons emits `join`, and a start button emits nothing at all with a blank name or a refused camera |
| AgentRuns.CallKeepsRoom | src/pages/index.tsx:173-211 | during a call no usable control and no incoming event changes the displayed room id or role, so they stay those the handlers captured |
| AgentRuns.TeardownOnlyOnLeave | src/pages/index.tsx:119-158 | no action but "Leave Call" and `peer-left` closes the socket or the peer connection or stops the camera; leaving closes exactly the handles that are open |
| AgentRuns.SocketOnlyOnStart | src/pages/index.tsx:33-68 | a connection to the relay is opened only by a start button, with its connection id, a non-blank name and the camera granted |
| AgentRuns.ReachableConsistent | src/pages/index.tsx:12-25 | every page state reachable from the initial one keeps the handle/flag agreement |
| TwoPartyCall.CreateRoom | src/pages/index.tsx:33-44 | a creator with a non-blank name ends up waiting in room `r`; the relay holds its own-id room and `r` with it alone; the relay's output for the join is empty |
| TwoPartyCall.SecondJoinRelay | signaling-server.js:13-16 | when the second participant joins, the relay holds both in `r`, and exactly one `peer-joined` goes to the creator |
| TwoPartyCall.JoinRoom | src/pages/index.tsx:47-57 | the joiner ends up waiting in `r` as callee, and the relay's only delivery is `peer-joined` to the creator |
| TwoPartyCall.SendOffer | src/pages/index.tsx:93-100 | the caller records its offer, and the relay's only delivery is that offer, unmodified, to the callee |
| TwoPartyCall.SendAnswer | src/pages/index.tsx:101-107 | the callee records offer and answer, and the relay's only delivery is that answer to the caller |
| TwoPartyCall.EstablishCall | src/pages/index.tsx:93-110 | creator and joiner in one room: the relay's four outputs are nothing for the creator's join, then exactly `peer-joined` to the creator, then one offer to the joiner, then one answer to the creator, and the creator's handling of the answer sends nothing. The creator ends connected, the joiner answer-sent, and each holds the other's description as its remote one |
| TwoPartyCall.ChatRoundTrip | src/pages/index.tsx:124-139 | a chat message sent during a call is the relay's one delivery, to the other participant's connection, with the sender's name; receiving it sends nothing; both transcripts gain the same final entry, the sender's input is cleared, and neither page's negotiation phase moves |
| TwoPartyCall.HangUp | signaling-server.js:26-31 | when one participant leaves, the relay's one delivery is `peer-left` to the other, and the other's own disconnect then delivers nothing; both pages end idle with every handle released, and the relay has no rooms left |
| TwoPartyCall.FirstLeaves | signaling-server.js:26-31 | the first of two members to disconnect sends exactly one `peer-left`, to the other |
| TwoPartyCall.SecondLeaves | signaling-server.js:26-31 | the last member of a room disconnects without sending any `peer-left` |

## Left out

- The socket.io transport, the express/http server, CORS and `listen`
  (signaling-server.js:2-10, 35-38): network I/O. Connection ids come in as
  parameters.
- socket.io's `socket.to(room)` actually excludes every member of the
  sender's own-id room, not just the sender. The two differ only when some
  other connection has joined a room named after the sender's id. The model
  uses "members minus the sender".
- Payload shapes other than the ones the page sends
  (signaling-server.js:13-24): the messages are typed. socket.io's `join`
  and `to` also accept an array of rooms, joining all of them or reaching
  each member of their union once. A `signal` or `chat-message` without a
  payload object makes the handler's destructuring throw a `TypeError`.
  The page never sends either shape.
- Delivery order among the recipients of one broadcast, and between the
  messages of different handlers: relay outputs are multisets. In the
  two-party scenarios each step delivers to one connection at most.
- `generateRoomId` (src/pages/index.tsx:28-30): it uses `Math.random` and
  float-to-string conversion, so the new room id is a parameter.
- React rendering, status strings, the `console.error` logging of a
  rejected candidate (src/pages/index.tsx:115), the video elements, track forwarding
  (`addTrack`, `ontrack`) and the STUN configuration
  (src/pages/index.tsx:64-66, 72-79, 87-91, 156-257): UI plumbing and browser
  internals.
- The `disabled` attribute of the two start buttons: runs may still press
  them with a blank name, and the handlers' own checks are modelled.
- SDP contents and the browser's own rules for `addIceCandidate` (it rejects
  a candidate before a remote description is set): the success of
  `addIceCandidate` is a free parameter.
- Failures of `createOffer`, `createAnswer`, `setLocalDescription` and
  `setRemoteDescription`: in the code they abort the handler with an
  unhandled rejection. These are foreign browser calls and are assumed to
  succeed.
- Interleavings between `await` points (a candidate arriving during
  `setRemoteDescription`): every handler is one atomic step.
- Starting a call while one is live: the page hides both start buttons
  during a call. `StartMediaAndSocket` then simply overwrites the refs
  without closing the old handles, as the code would.

=== FILE: agent.dfy ===
/** The per-participant client of src/pages/index.tsx. React state and refs
    become the fields of one immutable record; every handler becomes a step
    function returning the new record and the effects the handler performs
    (messages to the relay, sockets opened or closed, the peer connection
    closed, camera tracks stopped). The browser's asynchronous operations
    whose result the code cannot choose are parameters: the stream
    getUserMedia yields (None when it rejects), the connection id the relay
    assigns, the descriptions createOffer and createAnswer produce, and
    whether addIceCandidate succeeds. */
module Negotiation {
  import opened Wrappers
  import opened Protocol
  import opened JsText

  const CreateNameError: string := "Please enter your name before creating a call."
  const JoinNameError: string := "Please enter your name before joining a call."

  /** The sender name used when the participant typed none. */
  const Anonymous: string := "Anonymous"

  datatype SdpType = OfferType | AnswerType

  /** An RTCSessionDescription: its type and its SDP text. */
  datatype Description = Description(kind: SdpType, sdp: Sdp)

  /** An RTCPeerConnection, reduced to what negotiation changes in it. */
  datatype PeerConnection = PeerConnection(
    localDesc: Option<Description>,
    remoteDesc: Option<Description>,
    remoteCandidates: seq<IceCandidate>)
  {
    predicate HasLocalDesc() { localDesc.Some? }
    predicate HasRemoteDesc() { remoteDesc.Some? }
  }

  /** A peer connection just constructed. */
  const NewPeer: PeerConnection := PeerConnection(None, None, [])

  /** An open relay connection together with the room id and role that the
      handlers registered on it captured when the call was started. */
  datatype Socket = Socket(conn: ConnId, roomId: RoomId, asCaller: bool)

  /** The local camera and microphone stream. */
  datatype MediaStream = MediaStream(id: string)

  datatype ChatEntry = ChatEntry(sender: string, message: string)

  /** The component's state: the useState values and the three refs that
      hold the socket, the peer connection and the local stream. */
  datatype Agent = Agent(
    username: string,
    usernameError: string,
    roomId: RoomId,
    isCaller: bool,
    inCall: bool,
    chat: seq<ChatEntry>,
    chatInput: string,
    socket: Option<Socket>,
    peer: Option<PeerConnection>,
    stream: Option<MediaStream>)
  {
    /** The handlers of a call are installed and its connection is open. */
    predicate Live() {
      socket.Some? && peer.Some?
    }

    /** The refs and flags agree: a call holds all three handles or none,
        inCall says which, and the handlers captured the displayed room and role. */
    predicate Consistent() {
      && (socket.Some? <==> peer.Some?)
      && (socket.Some? <==> stream.Some?)
      && (inCall <==> socket.Some?)
      && (socket.Some? ==> socket.value.roomId == roomId && socket.value.asCaller == isCaller)
    }
  }

  /** The component when the page loads. */
  const Initial: Agent := Agent("", "", "", false, false, [], "", None, None, None)

  datatype Effect =
    | OpenSocket(conn: ConnId)      // io(SIGNALING_SERVER_URL)
    | Emit(message: ClientMessage)  // socket.emit(...)
    | CloseSocket                   // socket.disconnect()
    | ClosePeer                     // peer.close()
    | StopTracks                    // track.stop() on every local track

  /** A handler's outcome. */
  datatype Step = Step(agent: Agent, effects: seq<Effect>)

  /** The messages among some effects, in order. */
  function Emitted(effects: seq<Effect>): (msgs: seq<ClientMessage>)
    ensures |msgs| <= |effects|
    ensures forall m :: m in msgs <==> Emit(m) in effects
    ensures msgs == [] <==> forall e :: e in effects ==> !e.Emit?
  {
    if effects == [] then []
    else (if effects[0].Emit? then [effects[0].message] else []) + Emitted(effects[1..])
  }

  /** startMediaAndSocket: acquire the camera, connect to the relay, send
      `join`, build the peer connection and register the handlers. When
      getUserMedia rejects, nothing after it happens. */
  function StartMediaAndSocket(a: Agent, roomId: RoomId, isCaller: bool, media: Option<MediaStream>, conn: ConnId): (r: Step)
    ensures media.None? ==> r == Step(a, [])
    ensures media.Some? ==>
      && r.agent == a.(stream := media, socket := Some(Socket(conn, roomId, isCaller)), peer := Some(NewPeer), inCall := true)
      && Emitted(r.effects) == [Join(roomId)]
      && OpenSocket(conn) in r.effects
    ensures forall e <- r.effects :: e.Emit? || e == OpenSocket(conn)
  {
    match media
    case None => Step(a, [])
    case Some(_) =>
      Step(a.(stream := media, socket := Some(Socket(conn, roomId, isCaller)), peer := Some(NewPeer), inCall := true),
           [OpenSocket(conn), Emit(Join(roomId))])
  }

  /** startCall ("Create Call"): refuses a blank name; otherwise takes the
      freshly generated room id, becomes the caller and starts the call. */
  function StartCall(a: Agent, newRoomId: RoomId, media: Option<MediaStream>, conn: ConnId): (r: Step)
    ensures Blank(a.username) ==> r == Step(a.(usernameError := CreateNameError), [])
    ensures !Blank(a.username) ==> r.agent.roomId == newRoomId && r.agent.isCaller && r.agent.usernameError == ""
    ensures Emitted(r.effects) == if !Blank(a.username) && media.Some? then [Join(newRoomId)] else []
    ensures media.None? ==> r.agent.socket == a.socket && r.agent.peer == a.peer && r.agent.stream == a.stream && r.agent.inCall == a.inCall
    ensures !Blank(a.username) && media.Some? ==>
      && r.agent.socket == Some(Socket(conn, newRoomId, true))
      && r.agent.peer == Some(NewPeer)
      && r.agent.stream == media
      && r.agent.inCall
    ensures r.agent.chat == a.chat && r.agent.chatInput == a.chatInput && r.agent.username == a.username
    ensures forall e <- r.effects :: e.Emit? || e == OpenSocket(conn)
    ensures OpenSocket(conn) in r.effects <==> !Blank(a.username) && media.Some?
  {
    if Blank(a.username) then Step(a.(usernameError := CreateNameError), [])
    else StartMediaAndSocket(a.(usernameError := "", roomId := newRoomId, isCaller := true), newRoomId, true, media, conn)
  }

  /** joinCall ("Join Call"): refuses a blank name, does nothing without a
      room id, and otherwise starts the call as the callee. */
  function JoinCall(a: Agent, media: Option<MediaStream>, conn: ConnId): (r: Step)
    ensures Blank(a.username) ==> r == Step(a.(usernameError := JoinNameError), [])
    ensures !Blank(a.username) && a.roomId == "" ==> r == Step(a.(usernameError := ""), [])
    ensures Emitted(r.effects) == if !Blank(a.username) && a.roomId != "" && media.Some? then [Join(a.roomId)] else []
    ensures media.None? ==> r.agent.socket == a.socket && r.agent.peer == a.peer && r.agent.stream == a.stream && r.agent.inCall == a.inCall
    ensures !Blank(a.username) && a.roomId != "" ==> !r.agent.isCaller && r.agent.usernameError == ""
    ensures !Blank(a.username) && a.roomId != "" && media.Some? ==>
      && r.agent.socket == Some(Socket(conn, a.roomId, false))
      && r.agent.peer == Some(NewPeer)
      && r.agent.stream == media
      && r.agent.inCall
    ensures r.agent.roomId == a.roomId && r.agent.chat == a.chat && r.agent.chatInput == a.chatInput
    ensures r.agent.username == a.username
    ensures forall e <- r.effects :: e.Emit? || e == OpenSocket(conn)
    ensures OpenSocket(conn) in r.effects <==> !Blank(a.username) && a.roomId != "" && media.Some?
  {
    if Blank(a.username) then Step(a.(usernameError := JoinNameError), [])
    else if a.roomId == "" then Step(a.(usernameError := ""), [])
    else StartMediaAndSocket(a.(usernameError := "", isCaller := false), a.roomId, false, media, conn)
  }

  /** peer.onicecandidate: a discovered candidate is forwarded at once, in
      any phase; the end-of-candidates event (null) is not. */
  function OnIceCandidate(a: Agent, candidate: Option<IceCandidate>): (r: Step)
    ensures r.agent == a
    ensures Emitted(r.effects) ==
      if a.Live() && candidate.Some? then [Signal(a.socket.value.roomId, Candidate(candidate.value))] else []
    ensures forall e <- r.effects :: e.Emit?
  {
    if a.Live() && candidate.Some? then Step(a, [Emit(Signal(a.socket.value.roomId, Candidate(candidate.value)))])
    else Step(a, [])
  }

  /** `peer-joined`: the caller creates an offer, makes it its local
      description and sends it; the callee only waits. */
  function OnPeerJoined(a: Agent, offer: Sdp): (r: Step)
    ensures !(a.Live() && a.socket.value.asCaller) ==> r == Step(a, [])
    ensures a.Live() && a.socket.value.asCaller ==>
      && Emitted(r.effects) == [Signal(a.socket.value.roomId, Offer(offer))]
      && r.agent.peer.Some?
      && r.agent.peer.value.localDesc == Some(Description(OfferType, offer))
      && r.agent.peer.value.remoteDesc == a.peer.value.remoteDesc
      && r.agent.peer == Some(a.peer.value.(localDesc := Some(Description(OfferType, offer))))
      && r.agent == a.(peer := r.agent.peer)
    ensures forall e <- r.effects :: e.Emit?
  {
    if a.Live() && a.socket.value.asCaller then
      var p := a.peer.value;
      Step(a.(peer := Some(p.(localDesc := Some(Description(OfferType, offer))))),
           [Emit(Signal(a.socket.value.roomId, Offer(offer)))])
    else Step(a, [])
  }

  /** `signal`: an offer is applied as the remote description and answered,
      whatever this participant's role; an answer is applied as the remote
      description; a candidate is handed to addIceCandidate, whose failure is
      caught and changes nothing; any other type is ignored. */
  function OnSignal(a: Agent, data: SignalData, answer: Sdp, candidateAccepted: bool): (r: Step)
    ensures r.agent == a.(peer := r.agent.peer)
    ensures !a.Live() || data.Unrecognised? ==> r == Step(a, [])
    ensures a.Live() && data.Offer? ==>
      && r.agent.peer.Some?
      && r.agent.peer.value.remoteDesc == Some(Description(OfferType, data.offer))
      && r.agent.peer.value.localDesc == Some(Description(AnswerType, answer))
      && r.agent.peer.value.remoteCandidates == a.peer.value.remoteCandidates
      && Emitted(r.effects) == [Signal(a.socket.value.roomId, Answer(answer))]
    ensures a.Live() && data.Answer? ==>
      && r.effects == []
      && r.agent.peer.Some?
      && r.agent.peer.value.remoteDesc == Some(Description(AnswerType, data.answer))
      && r.agent.peer.value.localDesc == a.peer.value.localDesc
      && r.agent.peer.value.remoteCandidates == a.peer.value.remoteCandidates
    ensures a.Live() && data.Candidate? ==>
      && r.effects == []
      && r.agent.peer.Some?
      && r.agent.peer.value.localDesc == a.peer.value.localDesc
      && r.agent.peer.value.remoteDesc == a.peer.value.remoteDesc
      && r.agent.peer.value.remoteCandidates ==
           a.peer.value.remoteCandidates + (if candidateAccepted then [data.candidate] else [])
    ensures forall e <- r.effects :: e.Emit?
  {
    if !a.Live() then Step(a, [])
    else
      var p := a.peer.value;
      match data
      case Offer(offer) =>
        var p' := p.(remoteDesc := Some(Description(OfferType, offer)), localDesc := Some(Description(AnswerType, answer)));
        Step(a.(peer := Some(p')), [Emit(Signal(a.socket.value.roomId, Answer(answer)))])
      case Answer(ans) =>
        Step(a.(peer := Some(p.(remoteDesc := Some(Description(AnswerType, ans))))), [])
      case Candidate(c) =>
        if candidateAccepted then Step(a.(peer := Some(p.(remoteCandidates := p.remoteCandidates + [c]))), [])
        else Step(a, [])
      case Unrecognised(_) => Step(a, [])
  }

  /** An inbound `chat-message`: appended to the transcript. */
  function OnChatMessage(a: Agent, message: string, sender: string): (r: Step)
    ensures r.effects == []
    ensures a.Live() ==> r.agent.chat == a.chat + [ChatEntry(sender, message)]
    ensures r.agent == a.(chat := r.agent.chat)
    ensures !a.Live() ==> r.agent == a
  {
    if a.Live() then Step(a.(chat := a.chat + [ChatEntry(sender, message)]), [])
    else Step(a, [])
  }

  /** cleanup ("Leave Call", or `peer-left`): closes the peer connection,
      disconnects from the relay, stops the camera, and forgets all three.
      The room id, the role and the transcript stay. */
  function Cleanup(a: Agent): (r: Step)
    ensures r.agent.socket.None? && r.agent.peer.None? && r.agent.stream.None? && !r.agent.inCall
    ensures r.agent.Consistent()
    ensures r.agent.roomId == a.roomId && r.agent.isCaller == a.isCaller && r.agent.chat == a.chat
    ensures r.agent.username == a.username && r.agent.chatInput == a.chatInput && r.agent.usernameError == a.usernameError
    ensures ClosePeer in r.effects <==> a.peer.Some?
    ensures CloseSocket in r.effects <==> a.socket.Some?
    ensures StopTracks in r.effects <==> a.stream.Some?
    ensures forall e <- r.effects :: !e.Emit? && !e.OpenSocket?
  {
    Step(a.(inCall := false, peer := None, socket := None, stream := None),
         (if a.peer.Some? then [ClosePeer] else [])
         + (if a.socket.Some? then [CloseSocket] else [])
         + (if a.stream.Some? then [StopTracks] else []))
  }

  /** `peer-left`: the other participant's connection closed. */
  function OnPeerLeft(a: Agent): (r: Step)
    ensures a.Live() ==> r == Cleanup(a)
    ensures !a.Live() ==> r == Step(a, [])
  {
    if a.Live() then Cleanup(a) else Step(a, [])
  }

  /** `username || "Anonymous"` */
  function SenderName(username: string): (name: string)
    ensures name != ""
    ensures username != "" ==> name == username
    ensures username == "" ==> name == Anonymous
  {
    if username == "" then Anonymous else username
  }

  /** sendChatMessage: with non-blank input, an open socket and a room id,
      sends the input untrimmed, echoes it into the transcript and clears
      the input; otherwise does nothing. */
  function SendChatMessage(a: Agent): (r: Step)
    ensures !(!Blank(a.chatInput) && a.socket.Some? && a.roomId != "") ==> r == Step(a, [])
    ensures !Blank(a.chatInput) && a.socket.Some? && a.roomId != "" ==>
      && Emitted(r.effects) == [ChatMessage(a.roomId, a.chatInput, SenderName(a.username))]
      && r.agent.chat == a.chat + [ChatEntry(SenderName(a.username), a.chatInput)]
      && r.agent == a.(chat := r.agent.chat, chatInput := "")
    ensures forall e <- r.effects :: e.Emit?
  {
    if !Blank(a.chatInput) && a.socket.Some? && a.roomId != "" then
      var sender := SenderName(a.username);
      Step(a.(chat := a.chat + [ChatEntry(sender, a.chatInput)], chatInput := ""),
           [Emit(ChatMessage(a.roomId, a.chatInput, sender))])
    else Step(a, [])
  }

  /** What the browser decides during a handler: the description
      createOffer or createAnswer produces, and whether addIceCandidate
      accepts the candidate. */
  datatype Oracle = Oracle(offer: Sdp, answer: Sdp, candidateAccepted: bool)

  /** An event from the relay, handed to the handler registered for it. */
  function Receive(a: Agent, ev: ServerEvent, o: Oracle): (r: Step)
    ensures !a.Live() ==> r == Step(a, [])
    ensures !ev.PeerLeft? ==> forall e <- r.effects :: e.Emit?
    ensures ev.PeerLeft? ==> forall e <- r.effects :: !e.Emit? && !e.OpenSocket?
    ensures ev.PeerLeft? && a.Live() ==> r.agent.socket.None? && r.agent.peer.None? && r.agent.stream.None?
  {
    match ev
    case PeerJoined => OnPeerJoined(a, o.offer)
    case SignalIn(data) => OnSignal(a, data, o.answer, o.candidateAccepted)
    case ChatIn(message, sender) => OnChatMessage(a, message, sender)
    case PeerLeft => OnPeerLeft(a)
  }

  /** Nothing the relay delivers makes a page join a room: `join` belongs
      to the start buttons alone. */
  lemma ReceiveNeverJoins(a: Agent, ev: ServerEvent, o: Oracle)
    ensures forall m <- Emitted(Receive(a, ev, o).effects) :: m.Signal?
  {
  }

  /** The negotiation phases of one participant, read off the peer
      connection's descriptions. There is no separate terminal phase:
      after cleanup the page is back to Idle and can start a new call. */
  datatype Phase = Idle | AwaitingPeer | OfferSent | AnswerSent | Connected

  function PhaseOf(a: Agent): Phase {
    if !a.Live() then Idle
    else
      var p := a.peer.value;
      match p.localDesc
      case None => AwaitingPeer
      case Some(d) =>
        if d.kind == AnswerType then AnswerSent
        else if p.remoteDesc.Some? then Connected
        else OfferSent
  }

  /** A new call waits for its peer, in either role. */
  lemma StartedCallAwaitsPeer(a: Agent, newRoomId: RoomId, media: Option<MediaStream>, conn: ConnId)
    requires !Blank(a.username) && media.Some?
    ensures PhaseOf(StartCall(a, newRoomId, media, conn).agent) == AwaitingPeer
    ensures a.roomId != "" ==> PhaseOf(JoinCall(a, media, conn).agent) == AwaitingPeer
  {
  }

  /** Only the caller offers: the only event that makes a participant send an
      offer is `peer-joined`, and only when it started the call. */
  lemma OnlyCallerOffers(a: Agent, ev: ServerEvent, o: Oracle, m: ClientMessage)
    requires m in Emitted(Receive(a, ev, o).effects) && m.Signal? && m.data.Offer?
    ensures ev == PeerJoined && a.Live() && a.socket.value.asCaller
    ensures m == Signal(a.socket.value.roomId, Offer(o.offer))
  {
  }

  /** Whoever receives an offer answers it, once, into the room its handlers captured. */
  lemma EveryOfferAnswered(a: Agent, offer: Sdp, o: Oracle)
    requires a.Live()
    ensures Emitted(Receive(a, SignalIn(Offer(offer)), o).effects) == [Signal(a.socket.value.roomId, Answer(o.answer))]
    ensures PhaseOf(Receive(a, SignalIn(Offer(offer)), o).agent) == AnswerSent
  {
  }

  /** The caller's negotiation: `peer-joined` moves it from AwaitingPeer to
      OfferSent, and the answer from OfferSent to Connected. The callee
      stays where it is on `peer-joined`. (An answer that arrived before any
      offer would already have set a remote description: excluded here.) */
  lemma CallerPhases(a: Agent, o: Oracle, answer: Sdp)
    requires PhaseOf(a) == AwaitingPeer && a.peer.value.remoteDesc.None?
    ensures a.socket.value.asCaller ==> PhaseOf(Receive(a, PeerJoined, o).agent) == OfferSent
    ensures !a.socket.value.asCaller ==> Receive(a, PeerJoined, o) == Step(a, [])
    ensures var b := Receive(a, PeerJoined, o).agent;
      a.socket.value.asCaller ==> PhaseOf(Receive(b, SignalIn(Answer(answer)), o).agent) == Connected
  {
  }

  /** Candidates never move the negotiation: whether addIceCandidate accepts
      or rejects one, no description changes and nothing is sent. */
  lemma CandidateKeepsPhase(a: Agent, c: IceCandidate, o: Oracle)
    ensures var r := Receive(a, SignalIn(Candidate(c)), o);
      && PhaseOf(r.agent) == PhaseOf(a)
      && r.effects == []
      && (a.Live() ==>
            && r.agent.peer.value.localDesc == a.peer.value.localDesc
            && r.agent.peer.value.remoteDesc == a.peer.value.remoteDesc)
      && (!o.candidateAccepted ==> r.agent == a)
  {
  }

  /** Chat is a side channel: sending or receiving a message never moves
      the negotiation. */
  lemma ChatKeepsPhase(a: Agent, message: string, sender: string)
    ensures PhaseOf(SendChatMessage(a).agent) == PhaseOf(a)
    ensures PhaseOf(OnChatMessage(a, message, sender).agent) == PhaseOf(a)
  {
  }

  /** Leaving ends the call from every phase and releases every handle,
      closing precisely those that were open. */
  lemma LeaveEndsCall(a: Agent)
    ensures PhaseOf(Cleanup(a).agent) == Idle
    ensures PhaseOf(OnPeerLeft(a).agent) == Idle
    ensures a.Live() ==> CloseSocket in OnPeerLeft(a).effects && ClosePeer in OnPeerLeft(a).effects
  {
  }

  /** Cleanup is idempotent: a second run changes nothing and closes nothing. */
  lemma CleanupIdempotent(a: Agent)
    ensures Cleanup(Cleanup(a).agent) == Step(Cleanup(a).agent, [])
  {
  }
}

=== FILE: agent_runs.dfy ===
/** Sequences of events on one page: what the participant does through the
    form, and what the relay and the browser deliver. The page only offers
    some controls at a time (the name and room inputs and the two start
    buttons while not in a call; the chat box and "Leave Call" during one),
    and a run skips an action whose control is not on screen. */
module AgentRuns {
  import opened Wrappers
  import opened Protocol
  import opened JsText
  import opened Negotiation

  datatype Action =
    | TypeName(name: string)
    | TypeRoomId(id: RoomId)
    | CreateCall(newRoomId: RoomId, media: Option<MediaStream>, conn: ConnId)
    | JoinExisting(media: Option<MediaStream>, conn: ConnId)
    | TypeChat(text: string)
    | SendChat
    | LeaveCall
    | LocalCandidate(candidate: Option<IceCandidate>)
    | Inbound(event: ServerEvent, oracle: Oracle)

  /** Whether the control an action needs is rendered in state a. Relay
      events and browser callbacks can arrive at any time. */
  function Enabled(a: Agent, act: Action): (on: bool)
    ensures act.Inbound? || act.LocalCandidate? ==> on
    ensures act.TypeName? || act.TypeRoomId? || act.CreateCall? || act.JoinExisting? ==> (on <==> !a.inCall)
    ensures act.TypeChat? || act.SendChat? || act.LeaveCall? ==> (on <==> a.inCall)
  {
    match act
    case TypeName(_) => !a.inCall
    case TypeRoomId(_) => !a.inCall
    case CreateCall(_, _, _) => !a.inCall
    case JoinExisting(_, _) => !a.inCall
    case TypeChat(_) => a.inCall
    case SendChat => a.inCall
    case LeaveCall => a.inCall
    case LocalCandidate(_) => true
    case Inbound(_, _) => true
  }

  /** One action, by the handler the page wires to it. Typing a name also
      clears the name error. */
  function Apply(a: Agent, act: Action): (r: Step)
    ensures r.agent.username == if act.TypeName? then act.name else a.username
    ensures act.TypeName? ==> r.agent.usernameError == ""
    ensures r.agent.roomId != a.roomId ==> act.TypeRoomId? || act.CreateCall?
    ensures act.TypeName? || act.TypeRoomId? || act.TypeChat? ==> r.effects == []
  {
    match act
    case TypeName(name) => Step(a.(username := name, usernameError := ""), [])
    case TypeRoomId(id) => Step(a.(roomId := id), [])
    case CreateCall(newRoomId, media, conn) => StartCall(a, newRoomId, media, conn)
    case JoinExisting(media, conn) => JoinCall(a, media, conn)
    case TypeChat(text) => Step(a.(chatInput := text), [])
    case SendChat => SendChatMessage(a)
    case LeaveCall => Cleanup(a)
    case LocalCandidate(c) => OnIceCandidate(a, c)
    case Inbound(ev, o) => Receive(a, ev, o)
  }

  /** The state after the enabled actions of acts, in order. */
  function Run(a: Agent, acts: seq<Action>): Agent
    decreases |acts|
  {
    if acts == [] then a
    else
      var next := if Enabled(a, acts[0]) then Apply(a, acts[0]).agent else a;
      Run(next, acts[1..])
  }

  /** Every enabled action keeps the refs and flags in agreement. */
  lemma ApplyKeepsConsistent(a: Agent, act: Action)
    requires a.Consistent() && Enabled(a, act)
    ensures Apply(a, act).agent.Consistent()
  {
  }

  /** The transcript only grows at its end, by at most one entry per action. */
  lemma ApplyExtendsChat(a: Agent, act: Action)
    ensures a.chat <= Apply(a, act).agent.chat
    ensures |Apply(a, act).agent.chat| <= |a.chat| + 1
  {
  }

  /** From the page's initial state, or any consistent one, every run keeps
      the refs and flags in agreement. */
  lemma {:induction false} RunKeepsConsistent(a: Agent, acts: seq<Action>)
    requires a.Consistent()
    ensures Run(a, acts).Consistent()
    decreases |acts|
  {
    if acts != [] {
      var next := if Enabled(a, acts[0]) then Apply(a, acts[0]).agent else a;
      if Enabled(a, acts[0]) {
        ApplyKeepsConsistent(a, acts[0]);
      }
      RunKeepsConsistent(next, acts[1..]);
    }
  }

  /** No run rewrites or reorders what the transcript already shows, and
      each action adds at most one line. */
  lemma {:induction false} RunExtendsChat(a: Agent, acts: seq<Action>)
    ensures a.chat <= Run(a, acts).chat
    ensures |Run(a, acts).chat| <= |a.chat| + |acts|
    decreases |acts|
  {
    if acts != [] {
      var next := if Enabled(a, acts[0]) then Apply(a, acts[0]).agent else a;
      ApplyExtendsChat(a, acts[0]);
      RunExtendsChat(next, acts[1..]);
    }
  }

  /** `join` goes out only from the two start buttons, only with a name
      that is not blank, and only once the camera was granted. */
  lemma JoinNeedsMedia(a: Agent, act: Action)
    ensures !act.CreateCall? && !act.JoinExisting? ==>
              forall m <- Emitted(Apply(a, act).effects) :: !m.Join?
    ensures act.CreateCall? || act.JoinExisting? ==>
              (act.media.None? || Blank(a.username) ==> Emitted(Apply(a, act).effects) == [])
  {
    match act {
      case Inbound(ev, o) => ReceiveNeverJoins(a, ev, o);
      case _ =>
    }
  }

  /** While a call is on, nothing the page lets the participant do, and
      nothing that arrives, moves it to another room or role: the room and
      role the handlers captured stay those on display. */
  lemma CallKeepsRoom(a: Agent, act: Action)
    requires a.inCall && Enabled(a, act)
    ensures Apply(a, act).agent.roomId == a.roomId
    ensures Apply(a, act).agent.isCaller == a.isCaller
  {
  }

  /** Only "Leave Call" and `peer-left` tear a call down: no other action
      closes the relay socket or the peer connection or stops the camera,
      and leaving closes exactly what is open. */
  lemma TeardownOnlyOnLeave(a: Agent, act: Action)
    ensures !act.LeaveCall? && !(act.Inbound? && act.event.PeerLeft?) ==>
              forall e <- Apply(a, act).effects :: e.Emit? || e.OpenSocket?
    ensures act.LeaveCall? ==>
              && (ClosePeer in Apply(a, act).effects <==> a.peer.Some?)
              && (CloseSocket in Apply(a, act).effects <==> a.socket.Some?)
              && (StopTracks in Apply(a, act).effects <==> a.stream.Some?)
  {
  }

  /** Only a start button opens a connection to the relay, and only with a
      name that is not blank and the camera granted. */
  lemma SocketOnlyOnStart(a: Agent, act: Action)
    ensures forall e <- Apply(a, act).effects :: e.OpenSocket? ==>
              && (act.CreateCall? || act.JoinExisting?)
              && e == OpenSocket(act.conn)
              && act.media.Some? && !Blank(a.username)
  {
  }

  /** The page starts consistent, so every reachable page is. */
  lemma ReachableConsistent(acts: seq<Action>)
    ensures Run(Initial, acts).Consistent()
  {
    RunKeepsConsistent(Initial, acts);
  }
}

=== FILE: call.dfy ===
/** Two pages and the relay, composed: every message a page emits is handed
    to the relay's handler for it, and every delivery the relay makes is
    handed to the page it is addressed to. */
module TwoPartyCall {
  import opened Wrappers
  import opened Protocol
  import opened JsText
  import opened SignalingRelay
  import opened Negotiation

  /** The single delivery of a relay step that makes exactly one. */
  method Single(out: multiset<Delivery>) returns (d: Delivery)
    requires |out| == 1
    ensures out == multiset{d}
  {
    d :| d in out;
    var rest := out - multiset{d};
    assert out == rest + multiset{d};
    assert rest == multiset{};
  }

  /** The one message among a handler's effects, handed to the relay as
      sent from connection c. */
  function Forward(relay: Relay, c: ConnId, effects: seq<Effect>): (step: RelayStep)
    requires |Emitted(effects)| == 1
    ensures forall d :: d in step.out ==> d.to != c
  {
    Dispatch(relay, c, Emitted(effects)[0])
  }

  /** The page of a participant who has started a call on connection c in
      room r, before anything arrives. */
  predicate Waiting(p: Agent, name: string, c: ConnId, r: RoomId, caller: bool, media: MediaStream) {
    p == Agent(name, "", r, caller, true, [], "", Some(Socket(c, r, caller)), Some(NewPeer), Some(media))
  }

  /** A presses "Create Call": its connection opens and joins the still
      empty room r, and nobody is told. */
  method CreateRoom(nameA: string, r: RoomId, a: ConnId, sa: MediaStream)
    returns (A: Agent, relay: Relay, out: multiset<Delivery>)
    requires !Blank(nameA) && r != a
    ensures Waiting(A, nameA, a, r, true, sa)
    ensures relay == Relay(map[a := {a}, r := {a}])
    ensures out == multiset{}
  {
    var step := StartCall(Initial.(username := nameA), r, Some(sa), a);
    A := step.agent;
    assert Emitted(step.effects) == [Join(r)];
    FirstJoinRelay(r, a);
    var rs := Forward(Connect(Empty, a), a, step.effects);
    relay, out := rs.relay, rs.out;
  }

  /** The relay's side of A creating the call: A's connection opens and
      joins the empty room r, and nobody is told. */
  lemma FirstJoinRelay(r: RoomId, a: ConnId)
    requires r != a
    ensures HandleJoin(Connect(Empty, a), a, r) == RelayStep(Relay(map[a := {a}, r := {a}]), multiset{})
  {
    assert Empty.Members(a) + {a} == {a};
    var connected := Connect(Empty, a);
    assert connected.rooms == map[a := {a}];
    assert connected.Members(r) == {};
    assert HandleJoin(connected, a, r).relay.rooms == connected.rooms[r := connected.Members(r) + {a}];
    assert connected.Members(r) + {a} == {a};
  }

  /** The relay's side of B joining: B's connection opens, joins r, and A
      alone is told. */
  lemma SecondJoinRelay(relay: Relay, r: RoomId, a: ConnId, b: ConnId)
    requires a != b && r != a && r != b
    requires relay == Relay(map[a := {a}, r := {a}])
    ensures BothJoined(HandleJoin(Connect(relay, b), b, r).relay, r, a, b)
    ensures HandleJoin(Connect(relay, b), b, r).out == multiset{Delivery(a, PeerJoined)}
  {
    SecondConnects(relay, r, a, b);
    var connected := Connect(relay, b);
    assert connected.Members(r) == {a};
    assert connected.Members(r) - {b} == {a};
    JoinReachesOther(connected, b, r, a);
    assert HandleJoin(connected, b, r).relay.rooms == connected.rooms[r := connected.Members(r) + {b}];
    assert connected.Members(r) + {b} == {a, b};
  }

  /** B's connection opening adds its own-id room and nothing else. */
  lemma SecondConnects(relay: Relay, r: RoomId, a: ConnId, b: ConnId)
    requires a != b && r != a && r != b
    requires relay == Relay(map[a := {a}, r := {a}])
    ensures Connect(relay, b) == Relay(map[a := {a}, r := {a}, b := {b}])
  {
    assert relay.Members(b) + {b} == {b};
  }

  /** B types the room id and presses "Join Call": its connection joins r,
      and the relay tells A, and only A, `peer-joined`. */
  method JoinRoom(nameB: string, r: RoomId, a: ConnId, b: ConnId, sb: MediaStream, relay: Relay)
    returns (B: Agent, relay': Relay, out: multiset<Delivery>, d: Delivery)
    requires !Blank(nameB) && r != "" && a != b && r != a && r != b
    requires relay == Relay(map[a := {a}, r := {a}])
    ensures Waiting(B, nameB, b, r, false, sb)
    ensures BothJoined(relay', r, a, b)
    ensures out == multiset{d} && d == Delivery(a, PeerJoined)
  {
    var step := JoinCall(Initial.(username := nameB, roomId := r), Some(sb), b);
    B := step.agent;
    assert Emitted(step.effects) == [Join(r)];
    SecondJoinRelay(relay, r, a, b);
    var rs := Forward(Connect(relay, b), b, step.effects);
    relay', out := rs.relay, rs.out;
    d := Single(out);
  }

  /** The room r as the relay holds it once A and B have both joined. */
  predicate BothJoined(relay: Relay, r: RoomId, a: ConnId, b: ConnId) {
    relay == Relay(map[a := {a}, r := {a, b}, b := {b}])
  }

  /** In room r, each of A and B has exactly the other to talk to. */
  lemma RelayBetween(relay: Relay, r: RoomId, a: ConnId, b: ConnId)
    requires a != b && r != a && r != b && BothJoined(relay, r, a, b)
    ensures relay.Members(r) - {a} == {b} && relay.Members(r) - {b} == {a}
  {
    assert relay.rooms[r] == {a, b};
  }

  /** The caller A, told `peer-joined`, offers; the relay hands the offer to B alone. */
  method SendOffer(A: Agent, relay: Relay, nameA: string, r: RoomId, a: ConnId, b: ConnId, sa: MediaStream, offer: Sdp)
    returns (A': Agent, out: multiset<Delivery>, d: Delivery)
    requires a != b && r != a && r != b
    requires Waiting(A, nameA, a, r, true, sa) && BothJoined(relay, r, a, b)
    ensures out == multiset{d} && d == Delivery(b, SignalIn(Offer(offer)))
    ensures A' == A.(peer := Some(PeerConnection(Some(Description(OfferType, offer)), None, [])))
  {
    assert A.Live() && A.socket.value == Socket(a, r, true) && A.peer.value == NewPeer;
    var step := OnPeerJoined(A, offer);
    A' := step.agent;
    var msg := Signal(r, Offer(offer));
    assert Emitted(step.effects) == [msg];
    RelayBetween(relay, r, a, b);
    SignalReachesOther(relay, a, r, b, Offer(offer));
    var rs := HandleSignal(relay, a, r, Offer(offer));
    assert rs == Forward(relay, a, step.effects);
    out := rs.out;
    d := Single(out);
  }

  /** The callee B, handed an offer, answers; the relay hands the answer to A alone. */
  method SendAnswer(B: Agent, relay: Relay, nameB: string, r: RoomId, a: ConnId, b: ConnId, sb: MediaStream,
                    offer: Sdp, answer: Sdp)
    returns (B': Agent, out: multiset<Delivery>, d: Delivery)
    requires a != b && r != a && r != b
    requires Waiting(B, nameB, b, r, false, sb) && BothJoined(relay, r, a, b)
    ensures out == multiset{d} && d == Delivery(a, SignalIn(Answer(answer)))
    ensures B' == B.(peer := Some(PeerConnection(Some(Description(AnswerType, answer)), Some(Description(OfferType, offer)), [])))
  {
    assert B.Live() && B.socket.value == Socket(b, r, false) && B.peer.value == NewPeer;
    var step := OnSignal(B, Offer(offer), answer, true);
    B' := step.agent;
    var msg := Signal(r, Answer(answer));
    assert Emitted(step.effects) == [msg];
    RelayBetween(relay, r, a, b);
    SignalReachesOther(relay, b, r, a, Answer(answer));
    var rs := HandleSignal(relay, b, r, Answer(answer));
    assert rs == Forward(relay, b, step.effects);
    out := rs.out;
    d := Single(out);
  }

  /** A creates a call in room r, B joins it, and the relay carries the
      negotiation between them. The relay's four steps deliver nothing on
      A's join, then exactly one `peer-joined` to A, then exactly one offer
      to B, then exactly one answer to A; A's handling of the answer sends
      nothing more. Each side ends with the other's description as its
      remote one. */
  method EstablishCall(nameA: string, nameB: string, r: RoomId, a: ConnId, b: ConnId,
                       sa: MediaStream, sb: MediaStream, offer: Sdp, answer: Sdp)
    returns (A: Agent, B: Agent, relay: Relay, outs: seq<multiset<Delivery>>, trace: seq<Delivery>, lastSent: seq<ClientMessage>)
    requires !Blank(nameA) && !Blank(nameB)
    requires r != "" && a != b && r != a && r != b
    ensures trace == [Delivery(a, PeerJoined), Delivery(b, SignalIn(Offer(offer))), Delivery(a, SignalIn(Answer(answer)))]
    ensures outs == [multiset{}, multiset{trace[0]}, multiset{trace[1]}, multiset{trace[2]}]
    ensures lastSent == []
    ensures PhaseOf(A) == Connected && PhaseOf(B) == AnswerSent
    ensures A.peer.value.localDesc == B.peer.value.remoteDesc == Some(Description(OfferType, offer))
    ensures B.peer.value.localDesc == A.peer.value.remoteDesc == Some(Description(AnswerType, answer))
    ensures A.socket == Some(Socket(a, r, true)) && B.socket == Some(Socket(b, r, false))
    ensures A.Consistent() && B.Consistent()
    ensures BothJoined(relay, r, a, b)
  {
    var A0, relay0, out0 := CreateRoom(nameA, r, a, sa);
    var B0, out1, d;
    B0, relay, out1, d := JoinRoom(nameB, r, a, b, sb, relay0);
    var A1, out2, offered := SendOffer(A0, relay, nameA, r, a, b, sa, offer);
    var out3, answered;
    B, out3, answered := SendAnswer(B0, relay, nameB, r, a, b, sb, offer, answer);
    var last := OnSignal(A1, answered.event.data, answer, true);
    A, lastSent := last.agent, Emitted(last.effects);
    trace := [d, offered, answered];
    outs := [out0, out1, out2, out3];
  }

  /** During a call, A types a message and sends it: B alone receives it,
      with A's name (or "Anonymous") as sender, and both transcripts end with
      the same new line. */
  method ChatRoundTrip(A: Agent, B: Agent, relay: Relay, r: RoomId, a: ConnId, b: ConnId, message: string)
    returns (A': Agent, B': Agent, out: multiset<Delivery>, trace: seq<Delivery>, replies: seq<ClientMessage>)
    requires a != b && r != ""
    requires A.Live() && A.socket.value.conn == a && A.roomId == r
    requires B.Live() && B.socket.value.conn == b
    requires relay.Members(r) - {a} == {b}
    requires !Blank(message)
    ensures out == multiset{Delivery(b, ChatIn(message, SenderName(A.username)))}
    ensures trace == [Delivery(b, ChatIn(message, SenderName(A.username)))]
    ensures replies == []
    ensures A'.chat == A.chat + [ChatEntry(SenderName(A.username), message)]
    ensures B'.chat == B.chat + [ChatEntry(SenderName(A.username), message)]
    ensures A'.chatInput == "" && PhaseOf(A') == PhaseOf(A) && PhaseOf(B') == PhaseOf(B)
  {
    var sender := SenderName(A.username);
    // Typing into the chat box sets the input.
    var typed := A.(chatInput := message);
    assert typed.socket.Some? && typed.roomId != "" && !Blank(typed.chatInput);
    var step := SendChatMessage(typed);
    A' := step.agent;
    var msgs := Emitted(step.effects);
    assert msgs == [ChatMessage(r, message, sender)];
    ChatReachesOther(relay, a, r, b, message, sender);
    var rs := Dispatch(relay, a, msgs[0]);
    out := rs.out;
    assert out == multiset{Delivery(b, ChatIn(message, sender))};
    var d := Single(out);
    trace := [d];
    assert d.to == B.socket.value.conn;
    var received := OnChatMessage(B, d.event.message, d.event.sender);
    B', replies := received.agent, Emitted(received.effects);
    ChatKeepsPhase(typed, message, sender);
    ChatKeepsPhase(B, message, sender);
    assert PhaseOf(typed) == PhaseOf(A);
  }

  /** A presses "Leave Call" during a call with B: A's connection closes, B
      alone is told `peer-left` and tears down too, both pages are back to
      Idle with every handle released, and the relay has forgotten the room. */
  method HangUp(A: Agent, B: Agent, relay: Relay, r: RoomId, a: ConnId, b: ConnId)
    returns (A': Agent, B': Agent, relay': Relay, outA: multiset<Delivery>, outB: multiset<Delivery>,
             trace: seq<Delivery>)
    requires a != b && r != a && r != b
    requires A.Live() && A.socket.value.conn == a && B.Live() && B.socket.value.conn == b
    requires BothJoined(relay, r, a, b)
    ensures outA == multiset{Delivery(b, PeerLeft)} && outB == multiset{}
    ensures trace == [Delivery(b, PeerLeft)]
    ensures PhaseOf(A') == Idle && PhaseOf(B') == Idle
    ensures A'.socket.None? && A'.peer.None? && A'.stream.None? && !A'.inCall
    ensures B'.socket.None? && B'.peer.None? && B'.stream.None? && !B'.inCall
    ensures A'.chat == A.chat && B'.chat == B.chat
    ensures relay' == Empty
  {
    var stepA := Cleanup(A);
    A' := stepA.agent;
    assert CloseSocket in stepA.effects;
    var relay1;
    relay1, outA := Disconnect(relay, a);
    FirstLeaves(relay, r, a, b, outA);
    var d := Single(outA);
    trace := [d];

    var stepB := Receive(B, d.event, Oracle("", "", false));
    B' := stepB.agent;
    assert CloseSocket in stepB.effects;
    relay', outB := Disconnect(relay1, b);
    SecondLeaves(relay, relay1, r, a, b, outB);
    LastLeaves(relay, relay1, relay', r, a, b);
  }

  /** The relay's side of A leaving: B alone is told. */
  lemma FirstLeaves(relay: Relay, r: RoomId, a: ConnId, b: ConnId, out: multiset<Delivery>)
    requires a != b && r != a && r != b && BothJoined(relay, r, a, b)
    requires forall d :: d in out ==> d.event == PeerLeft && d.to != a
    requires forall m :: m != a ==> out[Delivery(m, PeerLeft)] == |SharedRooms(relay, a, m)|
    ensures out == multiset{Delivery(b, PeerLeft)}
  {
    assert relay.RoomsOf(a) - {a} == {r};
    assert relay.Members(r) == {a, b};
    forall d
      ensures out[d] == multiset{Delivery(b, PeerLeft)}[d]
    {
      if d.event == PeerLeft && d.to != a {
        DisconnectFromOneRoom(relay, a, r, d.to);
        assert d == Delivery(d.to, PeerLeft);
      }
    }
  }

  /** The relay's side of B leaving after A: B is alone in every room it
      is in, so nobody is told. */
  lemma SecondLeaves(relay: Relay, relay1: Relay, r: RoomId, a: ConnId, b: ConnId, out: multiset<Delivery>)
    requires a != b && r != a && r != b && BothJoined(relay, r, a, b)
    requires forall x :: relay1.Members(x) == relay.Members(x) - {a}
    requires forall d :: d in out ==> d.event == PeerLeft && d.to != b
    requires forall m :: m != b ==> out[Delivery(m, PeerLeft)] == |SharedRooms(relay1, b, m)|
    ensures out == multiset{}
  {
    forall d
      ensures out[d] == 0
    {
      if d.event == PeerLeft && d.to != b {
        forall x
          ensures x !in SharedRooms(relay1, b, d.to)
        {
          assert relay1.Members(x) == relay.Members(x) - {a};
          assert relay.Members(x) == if x == a then {a} else if x == r then {a, b} else if x == b then {b} else {};
        }
        assert SharedRooms(relay1, b, d.to) == {};
        assert d == Delivery(d.to, PeerLeft);
      }
    }
  }

  /** After both leave, no room is left. */
  lemma LastLeaves(relay: Relay, relay1: Relay, relay2: Relay, r: RoomId, a: ConnId, b: ConnId)
    requires a != b && r != a && r != b && BothJoined(relay, r, a, b)
    requires forall x :: relay1.Members(x) == relay.Members(x) - {a}
    requires forall x :: relay2.Members(x) == relay1.Members(x) - {b}
    requires relay2.Valid()
    ensures relay2 == Empty
  {
    forall x
      ensures x !in relay2.rooms
    {
      assert relay2.Members(x) == {};
    }
    assert relay2.rooms == map[];
  }
}

=== FILE: jstext.dfy ===
/** The part of JavaScript's String.prototype.trim the client relies on:
    `!s.trim()` holds exactly when s is empty or all white space. */
module JsText {

  /** The characters trim strips: ECMAScript WhiteSpace and LineTerminator. */
  predicate IsWhiteSpace(ch: char) {
    || ch == '\t' || ch == '\n' || ch == '\U{B}' || ch == '\U{C}' || ch == '\r'
    || ch == ' ' || ch == '\U{A0}' || ch == '\U{1680}'
    || ('\U{2000}' <= ch <= '\U{200A}')
    || ch == '\U{2028}' || ch == '\U{2029}' || ch == '\U{202F}' || ch == '\U{205F}'
    || ch == '\U{3000}' || ch == '\U{FEFF}'
  }

  /** Strips leading white space: the result is the longest suffix of s
      that does not start with white space. */
  function TrimStart(s: string): (t: string)
    ensures |t| <= |s| && t == s[|s| - |t|..]
    ensures forall i :: 0 <= i < |s| - |t| ==> IsWhiteSpace(s[i])
    ensures t != [] ==> !IsWhiteSpace(t[0])
  {
    if |s| > 0 && IsWhiteSpace(s[0]) then TrimStart(s[1..]) else s
  }

  /** Strips trailing white space: the result is the longest prefix of s
      that does not end with white space. */
  function TrimEnd(s: string): (t: string)
    ensures |t| <= |s| && t == s[..|t|]
    ensures forall i :: |t| <= i < |s| ==> IsWhiteSpace(s[i])
    ensures t != [] ==> !IsWhiteSpace(t[|t| - 1])
  {
    if |s| > 0 && IsWhiteSpace(s[|s| - 1]) then TrimEnd(s[..|s| - 1]) else s
  }

  /** `s.trim()` */
  function Trim(s: string): string {
    TrimEnd(TrimStart(s))
  }

  /** `!s.trim()`: nothing but white space, so that trimming leaves the
      empty, falsy, string (BlankIffTrimEmpty). */
  predicate Blank(s: string) {
    forall i :: 0 <= i < |s| ==> IsWhiteSpace(s[i])
  }

  /** A string is blank exactly when trimming it leaves the empty string. */
  lemma BlankIffTrimEmpty(s: string)
    ensures Blank(s) <==> Trim(s) == ""
  {
    var t := TrimStart(s);
    if t != [] {
      assert !IsWhiteSpace(t[0]);
      assert t[0] == s[|s| - |t|];
      assert TrimEnd(t) != [];
    }
  }
}

=== FILE: protocol.dfy ===
/** The messages exchanged between a client and the signalling relay.
    The relay never looks inside a signal payload; only clients do. */
module Protocol {

  /** A connection id. socket.io puts every connection into a room named
      after its own id, so connection ids and room ids share one namespace. */
  type ConnId = string

  /** A room id: an opaque string chosen by the client that creates the call. */
  type RoomId = string

  /** The text of a session description (SDP); never interpreted here. */
  type Sdp = string

  /** A network path descriptor found by ICE; never interpreted here. */
  type IceCandidate = string

  /** The `data` object of a `signal` message, told apart by its `type` tag.
      `Unrecognised` stands for any tag other than the three the client handles. */
  datatype SignalData =
    | Offer(offer: Sdp)
    | Answer(answer: Sdp)
    | Candidate(candidate: IceCandidate)
    | Unrecognised(kind: string)

  /** Client to relay. */
  datatype ClientMessage =
    | Join(roomId: RoomId)
    | Signal(roomId: RoomId, data: SignalData)
    | ChatMessage(roomId: RoomId, message: string, sender: string)

  /** Relay to client. A forwarded chat message carries no room id. */
  datatype ServerEvent =
    | PeerJoined
    | SignalIn(data: SignalData)
    | ChatIn(message: string, sender: string)
    | PeerLeft

  /** One event handed to one connection. */
  datatype Delivery = Delivery(to: ConnId, event: ServerEvent)
}

=== FILE: relay.dfy ===
/** The signalling relay of signaling-server.js: a room-scoped fan-out
    router. Each socket.io handler is one atomic step from a relay state to
    a new relay state plus the deliveries it makes. */
module SignalingRelay {
  import opened Protocol

  /** Room membership as socket.io's adapter keeps it. */
  datatype Relay = Relay(rooms: map<RoomId, set<ConnId>>) {

    /** The members of room r; a room nobody is in has no members. */
    function Members(r: RoomId): set<ConnId> {
      if r in rooms then rooms[r] else {}
    }

    /** socket.rooms of connection c: every room it is in, its own-id room included. */
    function RoomsOf(c: ConnId): set<RoomId> {
      set r | r in rooms && c in rooms[r]
    }

    /** socket.io discards a room as soon as its last member leaves. */
    predicate Valid() {
      forall r :: r in rooms ==> rooms[r] != {}
    }
  }

  /** The relay after a handler ran, and what the handler delivered. */
  datatype RelayStep = RelayStep(relay: Relay, out: multiset<Delivery>)

  /** The relay before any connection exists. */
  const Empty: Relay := Relay(map[])

  /** `socket.to(r).emit(ev)`: one copy of ev to each recipient, in no
      particular order. The recipients are the members of r other than the
      sending socket. */
  function Broadcast(recipients: set<ConnId>, ev: ServerEvent): (out: multiset<Delivery>)
    ensures forall m :: out[Delivery(m, ev)] == if m in recipients then 1 else 0
    ensures forall d :: d in out ==> d.event == ev && d.to in recipients
  {
    multiset(set m | m in recipients :: Delivery(m, ev))
  }

  /** A broadcast to nobody delivers nothing. */
  lemma BroadcastToNobody(ev: ServerEvent)
    ensures Broadcast({}, ev) == multiset{}
  {
    assert (set m: ConnId | m in {} :: Delivery(m, ev)) == {};
  }

  /** The recipients of `socket.to(r)` when c sends. */
  function Others(s: Relay, c: ConnId, r: RoomId): set<ConnId> {
    s.Members(r) - {c}
  }

  /** The relay with room r holding exactly the given members. */
  function SetRoom(s: Relay, r: RoomId, members: set<ConnId>): (s': Relay)
    requires members != {}
    ensures s'.Members(r) == members
    ensures forall r' :: r' != r ==> s'.Members(r') == s.Members(r')
    ensures s.Valid() ==> s'.Valid()
  {
    Relay(s.rooms[r := members])
  }

  /** A new connection: socket.io puts it into the room named by its id. */
  function Connect(s: Relay, c: ConnId): (s': Relay)
    ensures s'.Members(c) == s.Members(c) + {c}
    ensures forall r :: r != c ==> s'.Members(r) == s.Members(r)
    ensures s.Valid() ==> s'.Valid()
  {
    SetRoom(s, c, s.Members(c) + {c})
  }

  /** `join`: c enters room r (created if absent), then every other member of
      r is told `peer-joined`. There is no capacity check. */
  function HandleJoin(s: Relay, c: ConnId, r: RoomId): (step: RelayStep)
    ensures step.relay.Members(r) == s.Members(r) + {c}
    ensures forall r' :: r' != r ==> step.relay.Members(r') == s.Members(r')
    ensures forall m :: step.out[Delivery(m, PeerJoined)] == if m in s.Members(r) && m != c then 1 else 0
    ensures forall d :: d in step.out ==> d.event == PeerJoined && d.to != c
    ensures s.Members(r) <= {c} ==> step.out == multiset{}
    ensures s.Valid() ==> step.relay.Valid()
  {
    var joined := SetRoom(s, r, s.Members(r) + {c});
    assert Others(joined, c, r) == Others(s, c, r);
    BroadcastToNobody(PeerJoined);
    RelayStep(joined, Broadcast(Others(joined, c, r), PeerJoined))
  }

  /** `signal`: the payload goes, untouched, to every member of r but the
      sender. The sender need not be a member; membership does not change. */
  function HandleSignal(s: Relay, c: ConnId, r: RoomId, data: SignalData): (step: RelayStep)
    ensures step.relay == s
    ensures forall m :: step.out[Delivery(m, SignalIn(data))] == if m in s.Members(r) && m != c then 1 else 0
    ensures forall d :: d in step.out ==> d.event == SignalIn(data)
    ensures s.Members(r) <= {c} ==> step.out == multiset{}
  {
    BroadcastToNobody(SignalIn(data));
    RelayStep(s, Broadcast(Others(s, c, r), SignalIn(data)))
  }

  /** `chat-message`: {message, sender} (no room id) goes to every member of
      r but the sender. Membership does not change. */
  function HandleChat(s: Relay, c: ConnId, r: RoomId, message: string, sender: string): (step: RelayStep)
    ensures step.relay == s
    ensures forall m :: step.out[Delivery(m, ChatIn(message, sender))] == if m in s.Members(r) && m != c then 1 else 0
    ensures forall d :: d in step.out ==> d.event == ChatIn(message, sender)
    ensures s.Members(r) <= {c} ==> step.out == multiset{}
  {
    BroadcastToNobody(ChatIn(message, sender));
    RelayStep(s, Broadcast(Others(s, c, r), ChatIn(message, sender)))
  }

  /** A client message from connection c, routed to its handler. */
  function Dispatch(s: Relay, c: ConnId, msg: ClientMessage): (step: RelayStep)
    ensures !msg.Join? ==> step.relay == s
    ensures forall d :: d in step.out ==> d.to != c
  {
    match msg
    case Join(r) => HandleJoin(s, c, r)
    case Signal(r, data) => HandleSignal(s, c, r, data)
    case ChatMessage(r, message, sender) => HandleChat(s, c, r, message, sender)
  }

  /** The rooms other than its own through which c reaches m: one `peer-left`
      goes to m for each of them when c disconnects. */
  ghost function SharedRooms(s: Relay, c: ConnId, m: ConnId): set<RoomId> {
    set r | r in s.rooms && r != c && c in s.rooms[r] && m in s.rooms[r]
  }

  /** The count of `peer-left` already sent to each member, when the rooms
      in todo are still to be visited. */
  ghost predicate PeerLeftSoFar(s: Relay, c: ConnId, todo: set<RoomId>, out: multiset<Delivery>) {
    && (forall d :: d in out ==> d.event == PeerLeft && d.to != c)
    && (forall m :: m != c ==> out[Delivery(m, PeerLeft)] == |SharedRooms(s, c, m) - todo|)
  }

  /** `disconnecting`: for each room of c except its own-id room, every other
      member is told `peer-left`. The handler does not change membership. */
  method HandleDisconnecting(s: Relay, c: ConnId) returns (out: multiset<Delivery>)
    ensures forall d :: d in out ==> d.event == PeerLeft && d.to != c
    ensures forall m :: m != c ==> out[Delivery(m, PeerLeft)] == |SharedRooms(s, c, m)|
  {
    out := multiset{};
    var todo := s.RoomsOf(c) - {c};
    PeerLeftNoneYet(s, c);
    while todo != {}
      invariant todo <= s.RoomsOf(c) - {c}
      invariant PeerLeftSoFar(s, c, todo, out)
      decreases todo
    {
      var r :| r in todo;
      PeerLeftStep(s, c, r, todo, out);
      out := out + Broadcast(Others(s, c, r), PeerLeft);
      todo := todo - {r};
    }
    assert forall m :: SharedRooms(s, c, m) - {} == SharedRooms(s, c, m);
  }

  /** Before any room is visited, nobody has been told anything. */
  lemma PeerLeftNoneYet(s: Relay, c: ConnId)
    ensures PeerLeftSoFar(s, c, s.RoomsOf(c) - {c}, multiset{})
  {
    forall m | m != c
      ensures SharedRooms(s, c, m) - (s.RoomsOf(c) - {c}) == {}
    {
    }
  }

  /** Visiting room r keeps the count right. */
  lemma PeerLeftStep(s: Relay, c: ConnId, r: RoomId, todo: set<RoomId>, out: multiset<Delivery>)
    requires r in todo && todo <= s.RoomsOf(c) - {c}
    requires PeerLeftSoFar(s, c, todo, out)
    ensures PeerLeftSoFar(s, c, todo - {r}, out + Broadcast(Others(s, c, r), PeerLeft))
  {
    var b := Broadcast(Others(s, c, r), PeerLeft);
    forall m | m != c
      ensures (out + b)[Delivery(m, PeerLeft)] == |SharedRooms(s, c, m) - (todo - {r})|
    {
      var before := SharedRooms(s, c, m) - todo;
      if m in s.Members(r) {
        assert SharedRooms(s, c, m) - (todo - {r}) == before + {r};
        assert r !in before;
      } else {
        assert SharedRooms(s, c, m) - (todo - {r}) == before;
      }
    }
  }

  /** A connection in no room but its own shares no room with anybody. */
  lemma NothingShared(s: Relay, c: ConnId, m: ConnId)
    requires s.RoomsOf(c) <= {c}
    ensures SharedRooms(s, c, m) == {}
  {
    forall r
      ensures r !in SharedRooms(s, c, m)
    {
      if r in s.rooms && c in s.rooms[r] {
        assert r in s.RoomsOf(c);
      }
    }
  }

  /** What socket.io does once the `disconnecting` handler returns: c leaves
      every room, and rooms left empty are discarded. */
  function Leave(s: Relay, c: ConnId): (s': Relay)
    ensures forall r :: s'.Members(r) == s.Members(r) - {c}
    ensures s'.RoomsOf(c) == {}
    ensures s'.Valid()
  {
    Relay(map r | r in s.rooms && s.rooms[r] - {c} != {} :: s.rooms[r] - {c})
  }

  /** A connection closing: the `disconnecting` handler, then the removal. */
  method Disconnect(s: Relay, c: ConnId) returns (s': Relay, out: multiset<Delivery>)
    ensures forall r :: s'.Members(r) == s.Members(r) - {c}
    ensures s'.RoomsOf(c) == {} && s'.Valid()
    ensures forall d :: d in out ==> d.event == PeerLeft && d.to != c
    ensures forall m :: m != c ==> out[Delivery(m, PeerLeft)] == |SharedRooms(s, c, m)|
    ensures s.RoomsOf(c) <= {c} ==> out == multiset{}
  {
    out := HandleDisconnecting(s, c);
    s' := Leave(s, c);
    if s.RoomsOf(c) <= {c} {
      forall d
        ensures out[d] == 0
      {
        if d.event == PeerLeft && d.to != c {
          NothingShared(s, c, d.to);
        }
      }
      assert out == multiset{};
    }
  }

  /** The relay admits a third member: the newcomer is let in and both
      members already there are told. */
  lemma ThirdJoinerAdmitted(s: Relay, c: ConnId, r: RoomId, x: ConnId, y: ConnId)
    requires s.Members(r) == {x, y} && x != y && c != x && c != y
    ensures HandleJoin(s, c, r).relay.Members(r) == {x, y, c}
    ensures |HandleJoin(s, c, r).relay.Members(r)| == 3
    ensures HandleJoin(s, c, r).out == multiset{Delivery(x, PeerJoined), Delivery(y, PeerJoined)}
  {
    var joined := Relay(s.rooms[r := s.Members(r) + {c}]);
    assert Others(joined, c, r) == {x, y};
    assert (set z | z in {x, y} :: Delivery(z, PeerJoined)) == {Delivery(x, PeerJoined), Delivery(y, PeerJoined)};
  }

  /** A broadcast to a single recipient is a single delivery. */
  lemma BroadcastToOne(m: ConnId, ev: ServerEvent)
    ensures Broadcast({m}, ev) == multiset{Delivery(m, ev)}
  {
    assert (set x | x in {m} :: Delivery(x, ev)) == {Delivery(m, ev)};
  }

  /** Joining a room with exactly one other member tells that member once
      and nobody else. */
  lemma JoinReachesOther(s: Relay, c: ConnId, r: RoomId, m: ConnId)
    requires s.Members(r) - {c} == {m}
    ensures HandleJoin(s, c, r).out == multiset{Delivery(m, PeerJoined)}
  {
    var joined := Relay(s.rooms[r := s.Members(r) + {c}]);
    assert Others(joined, c, r) == {m};
    BroadcastToOne(m, PeerJoined);
  }

  /** A signal into a room with exactly one other member reaches that
      member once and nobody else. */
  lemma SignalReachesOther(s: Relay, c: ConnId, r: RoomId, m: ConnId, data: SignalData)
    requires s.Members(r) - {c} == {m}
    ensures HandleSignal(s, c, r, data).out == multiset{Delivery(m, SignalIn(data))}
  {
    BroadcastToOne(m, SignalIn(data));
  }

  /** A chat message into a room with exactly one other member reaches that
      member once and nobody else. */
  lemma ChatReachesOther(s: Relay, c: ConnId, r: RoomId, m: ConnId, message: string, sender: string)
    requires s.Members(r) - {c} == {m}
    ensures HandleChat(s, c, r, message, sender).out == multiset{Delivery(m, ChatIn(message, sender))}
  {
    BroadcastToOne(m, ChatIn(message, sender));
  }

  /** A connection in one room besides its own sends exactly one `peer-left`
      to each other member of that room, and to nobody else. */
  lemma DisconnectFromOneRoom(s: Relay, c: ConnId, r: RoomId, m: ConnId)
    requires s.RoomsOf(c) - {c} == {r} && m != c
    ensures |SharedRooms(s, c, m)| == if m in s.Members(r) then 1 else 0
  {
    if m in s.Members(r) {
      assert SharedRooms(s, c, m) == {r} by {
        forall q | q in SharedRooms(s, c, m)
          ensures q == r
        {
          assert q in s.RoomsOf(c) - {c};
        }
      }
    } else {
      forall q
        ensures q !in SharedRooms(s, c, m)
      {
        if q in s.rooms && q != c && c in s.rooms[q] {
          assert q in s.RoomsOf(c) - {c};
        }
      }
      assert SharedRooms(s, c, m) == {};
    }
  }

  /** Leaving twice is leaving once, and a second disconnect has nobody to tell. */
  lemma LeaveIdempotent(s: Relay, c: ConnId)
    ensures Leave(Leave(s, c), c) == Leave(s, c)
    ensures forall m :: SharedRooms(Leave(s, c), c, m) == {}
  {
    var once := Leave(s, c);
    forall r | r in once.rooms
      ensures once.rooms[r] - {c} == once.rooms[r] != {}
    {
      assert once.rooms[r] == once.Members(r);
    }
    assert Leave(once, c).rooms == once.rooms;
    forall m
      ensures SharedRooms(once, c, m) == {}
    {
      NothingShared(once, c, m);
    }
  }

  /** Every message handler keeps the relay's rooms non-empty. */
  lemma DispatchKeepsValid(s: Relay, c: ConnId, msg: ClientMessage)
    requires s.Valid()
    ensures Dispatch(s, c, msg).relay.Valid()
  {
  }
}

=== FILE: wrappers.dfy ===
/** Optional values, used for the nullable handles of the client and for
    the outcome of browser operations that may fail. */
module Wrappers {

  datatype Option<+T> = None | Some(value: T)
}
